=== FILE: README.md ===
# Tracker telemetry pipeline in Dafny

A model of the acquisition-and-delivery core of the tracker app, a background
Android agent that periodically takes a location fix, reads battery and
sensor state, assembles a JSON telemetry entry and POSTs the backlog of
undelivered entries plus the new one to a collector, saving up to 1000
entries when the delivery fails.

The app holds the same logic twice: inlined in `ForegroundService.kt` and
factored out into `TelemetryDataProvider.kt` and `TelemetrySender.kt`. Each
rule is modelled once; the table cites one copy per row and names the other
copy's lines in the text. The two copies agree on every rule modelled here.

Modules (one file each):

- `Wrappers` (`wrappers.dfy`): `Option`, Kotlin's nullable values.
- `JvmInt` (`jvm_int.dfy`): 32-bit `Int` wrap-around and truncating division.
- `Decimal` (`decimal.dfy`): printing an `Int` in decimal, zero padding, and parsing back.
- `Location` (`location.dfy`): the stabilising listener of one provider attempt, the provider fallback and the GPS-only time to fix.
- `Battery` (`battery.dfy`): the battery reads with their sentinels and the charging-status mapping.
- `Timestamp` (`timestamp.dfy`): the `yyyy-MM-dd'T'HH:mm:ss.SSSZ` formatting and the colon inserted into the offset.
- `Telemetry` (`telemetry.dfy`): the JSON objects of an entry and the request array.
- `RetryBuffer` (`retry_buffer.dfy`): draining the saved backlog and keeping the newest 1000 entries.
- `Delivery` (`delivery.dfy`): the error message, the response parsing, the headers and the two outcomes of a send.
- `Cycle` (`cycle.dfy`): one iteration of the service loop, and runs of failed iterations.

Inputs that the platform supplies are parameters: a provider attempt is the
finite sequence of readings delivered before its 10-second timeout (or a
refused subscription); the clock and time zone are a `LocalTime`; the
battery broadcast is a map of its integer extras; sensor values, the elapsed
fix time and the outcome of the HTTP exchange are given.

## Model

| member | source | states |
|---|---|---|
| Location.ListenForFix | app/src/main/java/dev/evanfeng/tracker/ForegroundService.kt:254-289 | A refused subscription yields null; otherwise the attempt yields null exactly when no reading settles and resolves with the first reading whose accuracy is within 5 of its predecessor's; the loop keeps `lastAccuracy` equal to the previous reading's accuracy, and the result always equals the functional attempt `TryProvider` (also TelemetryDataProvider.kt lines 48-81). |
| Location.ScanResolvesAtFirstSettled | app/src/main/java/dev/evanfeng/tracker/ForegroundService.kt:256-266 | Feeding the listener from any point where it remembers the previous reading and nothing has settled yet, it resolves exactly at the first settling reading and is null iff none settles. |
| Location.StabiliseSpec | app/src/main/java/dev/evanfeng/tracker/TelemetryDataProvider.kt:51-61 | The functional attempt is null iff no reading i >= 1 is within 5 of reading i-1, and otherwise equals the first such reading; the very first reading never resolves (also ForegroundService.kt lines 256-266). |
| Location.StabiliseIgnoresLaterReadings | app/src/main/java/dev/evanfeng/tracker/ForegroundService.kt:261-263 | Once an attempt has resolved, readings that arrive afterwards do not change its result (the listener is removed). |
| Location.Fallback | app/src/main/java/dev/evanfeng/tracker/ForegroundService.kt:291-311 | Providers are tried as a prefix of the given order; every provider before the last tried gave null; the result is the last tried provider's result; a null result means every provider was tried. |
| Location.FreshLocationChainIsFallback | app/src/main/java/dev/evanfeng/tracker/TelemetryDataProvider.kt:35-46 | `getLocation`'s chain of early returns decides exactly as the ordered fallback over GPS, NETWORK, FUSED (level S or later), PASSIVE (also ForegroundService.kt lines 291-311). |
| Location.FreshLocationOrder | app/src/main/java/dev/evanfeng/tracker/ForegroundService.kt:291-311 | GPS is tried first; FUSED is tried only on level 31 (S) or later; PASSIVE is tried only after every other provider gave null; a fix is obtained iff some provider in the order yields one. |
| Location.FixNamesResolvingProvider | app/src/main/java/dev/evanfeng/tracker/ForegroundService.kt:102-104 | When GPS, NETWORK and FUSED name themselves on their readings, a fix obtained from one of them names the provider whose attempt resolved; a fix relayed by PASSIVE is not constrained. |
| Telemetry.TimeToFixOnlyForGps | app/src/main/java/dev/evanfeng/tracker/ForegroundService.kt:101-122 | `timeToFix` is non-null exactly for a GPS fix and then equals elapsed ms / 1000; with no fix every location field is null (also TelemetryDataProvider.kt line 178). |
| Telemetry.TimeToFixMeansGpsResolved | app/src/main/java/dev/evanfeng/tracker/ForegroundService.kt:101-104 | With the active providers naming themselves, a cycle reports a time to fix exactly when the GPS attempt itself resolved and no other provider was tried, or when every active provider failed and PASSIVE relayed a fix named after GPS. |
| Telemetry.PassiveRelayedGpsFix | app/src/main/java/dev/evanfeng/tracker/ForegroundService.kt:101-104 | When every active provider fails and PASSIVE settles on relayed GPS readings, all providers were tried and the entry still reports a GPS time to fix, covering the failed attempts as well (25 000 ms gives 25.0). |
| Telemetry.BuildLocationJson | app/src/main/java/dev/evanfeng/tracker/TelemetryDataProvider.kt:170-181 | Without a fix every location field is null; with one each field is the fix's value and the provider its name; `timeToFix` is null iff no time was measured, else the time in seconds (also ForegroundService.kt lines 112-124). |
| Telemetry.BuildBatteryJson | app/src/main/java/dev/evanfeng/tracker/TelemetryDataProvider.kt:183-191 | Voltage is null iff the millivolt extra is negative, else that value / 1000; current is null iff the platform reports `Int.MIN_VALUE`, else the reading / 1000; temperature is null iff the raw extra is negative, else a tenth of it; level is null iff the percentage is negative; charging follows the status mapping (also ForegroundService.kt lines 125-137). |
| Telemetry.BuildTelemetryJson | app/src/main/java/dev/evanfeng/tracker/TelemetryDataProvider.kt:151-168 | The request holds every backlog entry in its original position followed by exactly one new entry. |
| Battery.IntExtra | app/src/main/java/dev/evanfeng/tracker/TelemetryDataProvider.kt:84-86 | An extra reads as its value when the broadcast and the key are present and as -1 when either is absent. |
| Battery.PercentageSentinel | app/src/main/java/dev/evanfeng/tracker/ForegroundService.kt:313-318 | The percentage is -1 unless level >= 0 and scale > 0, and is not negative when those hold and `level * 100` fits in an `Int`. |
| Battery.PercentageTruncates | app/src/main/java/dev/evanfeng/tracker/TelemetryDataProvider.kt:83-88 | For any level >= 0 with a positive scale the percentage is the truncated quotient: p * scale <= level * 100 < (p + 1) * scale, so a level above its scale is also divided, not clamped; for level <= scale it lies in [0, 100]. |
| Battery.PercentageOverflowExample | app/src/main/java/dev/evanfeng/tracker/TelemetryDataProvider.kt:87 | A level equal to a scale of 30 000 000 overflows `level * 100` and the percentage comes out negative, so the level is emitted as null. |
| JvmInt.Quot | app/src/main/java/dev/evanfeng/tracker/TelemetryDataProvider.kt:87 | Integer division rounds toward zero: the remainder has the sign of the dividend and is smaller than the divisor. |
| Battery.VoltageVolts | app/src/main/java/dev/evanfeng/tracker/ForegroundService.kt:320-324 | Voltage is present iff the millivolt extra is non-negative, and then is that value / 1000 (also TelemetryDataProvider.kt lines 90-94). |
| Battery.CurrentMilliamps | app/src/main/java/dev/evanfeng/tracker/ForegroundService.kt:326-330 | Current is null iff the platform reports `Int.MIN_VALUE`, else the reading / 1000 (also TelemetryDataProvider.kt lines 96-100). |
| Battery.EmittedTemperature | app/src/main/java/dev/evanfeng/tracker/ForegroundService.kt:347-351 | The emitted temperature is null iff the raw decidegree extra is negative (not only for -1), else raw / 10 (also ForegroundService.kt line 130, TelemetryDataProvider.kt lines 115-119 and 187). |
| Battery.ChargingMapping | app/src/main/java/dev/evanfeng/tracker/TelemetryDataProvider.kt:102-113 | CHARGING and FULL map to true; DISCHARGING, NOT_CHARGING and UNKNOWN to false; every other code, the absent default -1 included, to null (also ForegroundService.kt lines 332-345). |
| Timestamp.InsertOffsetColon | app/src/main/java/dev/evanfeng/tracker/ForegroundService.kt:420-427 | The result is one character longer, keeps everything but the last two characters, then a colon, then the last two characters (also TelemetryDataProvider.kt lines 144-149). |
| Timestamp.InsertOffsetColonRoundTrip | app/src/main/java/dev/evanfeng/tracker/ForegroundService.kt:424-426 | Removing the inserted colon gives the formatter's text back. |
| Timestamp.Iso8601OffsetShape | app/src/main/java/dev/evanfeng/tracker/TelemetryDataProvider.kt:144-149 | The timestamp is the formatted date and time followed by `±HH:mm`, with the sign of the offset and hour and minute fields that read back as the offset's magnitude. |
| Timestamp.Iso8601PlusTwoHours | app/src/main/java/dev/evanfeng/tracker/TelemetryDataProvider.kt:144-149 | At UTC+2 the timestamp ends in `+02:00`, not `+0200`. |
| RetryBuffer.Backlog | app/src/main/java/dev/evanfeng/tracker/ForegroundService.kt:96-99 | The drained backlog is the saved array, or empty when nothing is saved. |
| RetryBuffer.KeepNewest | app/src/main/java/dev/evanfeng/tracker/TelemetrySender.kt:51-57 | The stored array has min(n, 1000) entries and is the suffix of the request of that length, in order; so at most 1000, and the request unchanged when n <= 1000 (also ForegroundService.kt lines 176-182). |
| RetryBuffer.CopyNewest | app/src/main/java/dev/evanfeng/tracker/ForegroundService.kt:176-182 | The copying loop over positions n - 1000 until n stores exactly the newest min(n, 1000) entries. |
| RetryBuffer.KeepNewestIdempotent | app/src/main/java/dev/evanfeng/tracker/TelemetrySender.kt:51-57 | Trimming an already trimmed array changes nothing. |
| RetryBuffer.KeepNewestAfterAppend | app/src/main/java/dev/evanfeng/tracker/ForegroundService.kt:175-184 | Trimming a backlog and then appending entries trims to the same array as trimming the untrimmed whole. |
| RetryBuffer.KeepNewestOf1501 | app/src/main/java/dev/evanfeng/tracker/ForegroundService.kt:176-181 | Of 1501 entries, positions 501 to 1500 are stored. |
| Delivery.ErrorMessage | app/src/main/java/dev/evanfeng/tracker/TelemetrySender.kt:60 | The message is `Error code: ` followed by `Unknown` when no response arrived, else by the status code in decimal (also ForegroundService.kt line 186). |
| Delivery.ErrorMessageIdentifiesStatus | app/src/main/java/dev/evanfeng/tracker/ForegroundService.kt:186 | The message says `Unknown` exactly when no response arrived, and two failures give the same message exactly when they carry the same status (or both none). |
| Delivery.ErrorMessageFor500 | app/src/main/java/dev/evanfeng/tracker/TelemetrySender.kt:60 | An HTTP 500 failure reads `Error code: 500`. |
| Delivery.ParseNetworkResponse | app/src/main/java/dev/evanfeng/tracker/TelemetrySender.kt:63-71 | Parsing always succeeds: a JSON-array body is the result and any other body becomes an empty array (also ForegroundService.kt lines 189-197). |
| Delivery.GetHeaders | app/src/main/java/dev/evanfeng/tracker/TelemetrySender.kt:72-78 | The headers have exactly the keys CF-Access-Client-Id, CF-Access-Client-Secret and Content-Type, carrying the two credentials and `application/json` (also ForegroundService.kt lines 199-205). |
| Delivery.SendTelemetry | app/src/main/java/dev/evanfeng/tracker/TelemetrySender.kt:35-81 | A success answer, parseable or not, runs onSuccess and leaves the saved backlog untouched; a failure saves the newest min(n, 1000) entries of the request in order and runs onError with the status message. |
| Cycle.DrainAndSend | app/src/main/java/dev/evanfeng/tracker/ForegroundService.kt:96-187 | The request is the drained backlog in order followed by exactly one fresh entry; after a success nothing is saved and nothing is notified; after a failure the newest min(n, 1000) entries of the request are saved and the status message is notified. |
| Cycle.FreshSampleShape | app/src/main/java/dev/evanfeng/tracker/ForegroundService.kt:101-149 | The fresh entry carries the colon-offset timestamp and all-null cellular fields; without a fix every location field is null; with self-naming active providers it has a time to fix exactly when the GPS attempt resolved or PASSIVE relayed a GPS fix. |
| Cycle.CycleKeepsBufferBounded | app/src/main/java/dev/evanfeng/tracker/ForegroundService.kt:175-184 | From a backlog of at most 1000 entries, a request holds at most 1001 entries and the saved backlog at most 1000. |
| Cycle.FailingIterations | app/src/main/java/dev/evanfeng/tracker/ForegroundService.kt:96-187 | Assuming each failure's save lands before the next iteration drains (the service does not wait for the answer), running the service loop through any number n >= 1 of failed iterations saves the newest min(b + n, 1000) entries of the sequence `backlog ++ fresh entries` (b saved, n fresh), in order, so what is dropped is always older than what is kept; it raises the status notification once per iteration; with no iterations the saved backlog is untouched. |
| Cycle.ServerErrorWithEmptyBacklog | app/src/main/java/dev/evanfeng/tracker/ForegroundService.kt:166-187 | An HTTP 500 with nothing saved saves exactly the fresh entry and notifies `Error code: 500`. |
| Cycle.SuccessClearsBacklog | app/src/main/java/dev/evanfeng/tracker/ForegroundService.kt:158-165 | A success after three saved entries sends four entries and leaves nothing saved. |
| Cycle.FailureTrimsLongBacklog | app/src/main/java/dev/evanfeng/tracker/ForegroundService.kt:175-184 | A failure with 1500 saved entries saves entries 501 to 1499 followed by the fresh entry. |

Three behaviours of the Kotlin code that the model keeps as written:

- `getBatteryPercentage` truncates `level * 100 / scale`; it does not round.
- `parseNetworkResponse` turns a success response whose body is not a JSON
  array into a success with an empty array, not a failure.
- The success listener only logs how many backlog entries were sent; it
  reports no count to its caller.

## Left out

- Sensor reads (`readSingleSensor`, `getPressure`, `getLight`, `getProximity`): platform listeners; the model takes each first value, or null for an absent sensor, as an input. The missing timeout of a sensor read is not modelled.
- A provider the device lacks: `requestLocationUpdates` then throws `IllegalArgumentException`, which only `SecurityException` handlers surround, so it escapes `getFreshLocation` and ends the service loop; the model offers every provider and only models refusal (`Denied`) and the readings delivered.
- Listener registration, removal and coroutine cancellation (`requestLocationUpdates`, `removeUpdates`, `invokeOnCancellation`, `withTimeoutOrNull`): platform concurrency; the timeout is the end of the finite reading sequence.
- The HTTP exchange (Volley): whether a response counts as success and whether the body parses as a JSON array are inputs of type `Exchange`.
- JSON serialisation and the string stored in SharedPreferences: entries are values, and saving then loading the backlog is taken to round-trip; a corrupt saved string, which makes `JSONArray(failedJson)` throw, is not modelled.
- The configuration reads (name, endpoint, interval, credentials) and `delay(interval)`: iterations are modelled as running one after another, each one's send completing (and a failure's save landing) before the next iteration drains; the sleep itself is not modelled.
- Cycle.FailingIterations: assumes each failure's save lands before the next drain. The service queues the request and sleeps without waiting for the answer, so on a short interval or a slow answer a save can land after the next drain: two saves can overwrite each other (losing entries the cap would keep), or an older request's save can land last (dropping the newer entry). Those interleavings are not modelled.
- Logging and the notification itself: only the notification's text is modelled.
- Float arithmetic: latitude, accuracy, voltage, current, temperature and time to fix are reals; IEEE rounding is not modelled.
- The date formatter's locale: digits are assumed to be ASCII, and the clock and default time zone are an input `LocalTime`.
- Battery reads: each getter fetches the sticky battery broadcast on its own, so level, voltage, temperature and status may come from different snapshots; the model reads all of them from one `BatteryIntent` per iteration.
- `Location.provider` is nullable on the platform; the model gives every fix one of the four providers.
- MainActivity.kt, BootReceiver.kt, LogsReader.kt, PreferencesManager.kt and app/build.gradle.kts: UI, lifecycle, process spawning, configuration storage and build setup, outside this core.
- JvmInt.Quot: stated for positive divisors only, the only ones the percentage computation reaches (its scale is checked to be positive).
- Battery.PercentageTruncates: assumes `level * 100` fits in an `Int` (level <= 21474836); beyond that the product wraps, as Battery.PercentageOverflowExample shows.

=== FILE: battery.dfy ===
/**
 * The battery reader: synchronous reads of the sticky battery-changed
 * broadcast and of the battery manager's current property, with the
 * sentinels `getBatteryPercentage`, `getBatteryVoltage`, `getBatteryCurrent`,
 * `getBatteryTemperature` and `isCharging` use for "unavailable".
 */
module Battery {
  import opened Wrappers
  import opened JvmInt

  // Extra keys of the battery-changed broadcast.
  const ExtraLevel: string := "level"
  const ExtraScale: string := "scale"
  const ExtraVoltage: string := "voltage"
  const ExtraTemperature: string := "temperature"
  const ExtraStatus: string := "status"

  // Status codes of the broadcast's status extra.
  const StatusUnknown: int := 1
  const StatusCharging: int := 2
  const StatusDischarging: int := 3
  const StatusNotCharging: int := 4
  const StatusFull: int := 5

  /** The sticky battery-changed broadcast, reduced to its integer extras. */
  datatype BatteryIntent = BatteryIntent(extras: map<string, Int32>)

  /** `intent?.getIntExtra(key, -1) ?: -1`: absent broadcast or absent extra read as -1. */
  function IntExtra(intent: Option<BatteryIntent>, key: string): (v: Int32)
    ensures v != -1 ==> intent.Some? && key in intent.value.extras && intent.value.extras[key] == v
    ensures (intent.None? || key !in intent.value.extras) ==> v == -1
    ensures intent.Some? && key in intent.value.extras ==> v == intent.value.extras[key]
  {
    if intent.Some? && key in intent.value.extras then intent.value.extras[key] else -1
  }

  /** `level * 100 / scale` on Kotlin `Int`s, or -1 unless `level >= 0 && scale > 0`. */
  function PercentageOf(level: Int32, scale: Int32): int {
    if level >= 0 && scale > 0 then Quot(Mul(level, 100), scale) else -1
  }

  function Percentage(intent: Option<BatteryIntent>): int {
    PercentageOf(IntExtra(intent, ExtraLevel), IntExtra(intent, ExtraScale))
  }

  /**
   * Missing or meaningless level or scale give the -1 sentinel; otherwise,
   * while `level * 100` fits in an `Int`, the percentage is not negative.
   */
  lemma PercentageSentinel(level: Int32, scale: Int32)
    ensures !(level >= 0 && scale > 0) ==> PercentageOf(level, scale) == -1
    ensures level >= 0 && scale > 0 && level <= IntMax / 100 ==> PercentageOf(level, scale) >= 0
  {
    if level >= 0 && scale > 0 && level <= IntMax / 100 {
      assert Mul(level, 100) == level * 100;
    }
  }

  lemma MulMonotone(a: int, b: int, c: int)
    requires a <= b && c >= 0
    ensures a * c <= b * c
  {
  }

  /**
   * The percentage is the truncated (not rounded) quotient `level * 100 / scale`
   * for any non-negative level, as long as `level * 100` fits in an `Int`; for
   * a level within its scale it lies in [0, 100].
   */
  lemma PercentageTruncates(level: Int32, scale: Int32)
    requires 0 <= level && 0 < scale
    requires level <= IntMax / 100
    ensures var p := PercentageOf(level, scale);
      p * scale <= level * 100 < (p + 1) * scale &&
      (level <= scale ==> 0 <= p <= 100)
  {
    var a := level * 100;
    assert Mul(level, 100) == a;
    var p := Quot(a, scale);
    assert PercentageOf(level, scale) == p;
    assert p * scale <= a < p * scale + scale;
    assert (p + 1) * scale == p * scale + scale;
    if p < 0 {
      MulMonotone(p + 1, 0, scale);
    }
    if level <= scale {
      MulMonotone(level, scale, 100);
      if p > 100 {
        MulMonotone(101, p, scale);
      }
    }
  }

  /** 100% of a 30 000 000 scale overflows `Int` and is reported as unknown. */
  lemma PercentageOverflowExample()
    ensures PercentageOf(30000000, 30000000) < 0
  {
  }

  /** `mv / 1000f` for a non-negative millivolt extra, else null. */
  function VoltageVolts(intent: Option<BatteryIntent>): (v: Option<real>)
    ensures v.Some? <==> IntExtra(intent, ExtraVoltage) >= 0
    ensures v.Some? ==> v.value * 1000.0 == IntExtra(intent, ExtraVoltage) as real
  {
    var mv := IntExtra(intent, ExtraVoltage);
    if mv >= 0 then Some(mv as real / 1000.0) else None
  }

  /** `currentNow / 1000f` unless the platform reports `Int.MIN_VALUE` (unsupported). */
  function CurrentMilliamps(currentNow: Int32): (c: Option<real>)
    ensures c.None? <==> currentNow == IntMin
    ensures c.Some? ==> c.value * 1000.0 == currentNow as real
  {
    if currentNow != IntMin then Some(currentNow as real / 1000.0) else None
  }

  /** `temp / 10.0f` decidegrees, or -1 when the extra reads -1. */
  function TemperatureCelsius(intent: Option<BatteryIntent>): real {
    var temp := IntExtra(intent, ExtraTemperature);
    if temp != -1 then temp as real / 10.0 else -1.0
  }

  /** `takeIf { it >= 0 }`: a negative sentinel becomes null. */
  function NonNegativeReal(x: real): Option<real> {
    if x >= 0.0 then Some(x) else None
  }

  function NonNegativeInt(x: int): Option<int> {
    if x >= 0 then Some(x) else None
  }

  /**
   * The emitted temperature is null exactly when the raw decidegree extra is
   * negative (not only for the -1 sentinel), and otherwise a tenth of it.
   */
  lemma EmittedTemperature(intent: Option<BatteryIntent>)
    ensures NonNegativeReal(TemperatureCelsius(intent)).None? <==> IntExtra(intent, ExtraTemperature) < 0
    ensures NonNegativeReal(TemperatureCelsius(intent)).Some? ==>
      NonNegativeReal(TemperatureCelsius(intent)).value * 10.0 == IntExtra(intent, ExtraTemperature) as real
  {
  }

  /** The status codes the broadcast defines. */
  datatype ChargeStatus = Unknown | Charging | Discharging | NotCharging | Full

  function DecodeStatus(code: int): Option<ChargeStatus> {
    if code == StatusUnknown then Some(Unknown)
    else if code == StatusCharging then Some(Charging)
    else if code == StatusDischarging then Some(Discharging)
    else if code == StatusNotCharging then Some(NotCharging)
    else if code == StatusFull then Some(Full)
    else None
  }

  /** `isCharging` on a status code. */
  function ChargingForCode(status: int): Option<bool> {
    if status == StatusCharging || status == StatusFull then Some(true)
    else if status == StatusDischarging || status == StatusNotCharging || status == StatusUnknown then Some(false)
    else None
  }

  function IsCharging(intent: Option<BatteryIntent>): Option<bool> {
    ChargingForCode(IntExtra(intent, ExtraStatus))
  }

  /**
   * Charging and full mean charging; discharging, not charging and unknown
   * status mean not charging; a code that is not a status (the absent default
   * -1 included) gives null.
   */
  lemma ChargingMapping(status: int)
    ensures ChargingForCode(status).None? <==> DecodeStatus(status).None?
    ensures ChargingForCode(status) == Some(true) <==>
      DecodeStatus(status) == Some(Charging) || DecodeStatus(status) == Some(Full)
    ensures ChargingForCode(status) == Some(false) <==>
      DecodeStatus(status) in {Some(Discharging), Some(NotCharging), Some(Unknown)}
    ensures ChargingForCode(-1).None?
  {
  }
}

=== FILE: cycle.dfy ===
/**
 * One iteration of the collection loop in the foreground service: drain the
 * saved backlog, acquire a fix, assemble the request, send it, and on failure
 * save the newest entries and raise the error notification.
 *
 * Everything the platform supplies during the iteration (the provider
 * subscriptions, the clock, the battery and sensor reads, the outcome of the
 * HTTP exchange) is an input. The sleep between iterations is not modelled.
 */
module Cycle {
  import opened Wrappers
  import opened Location
  import opened Timestamp
  import opened Telemetry
  import opened RetryBuffer
  import opened Delivery

  /** What the platform supplies to one iteration. */
  datatype Platform = Platform(
    sdkInt: int,
    feeds: Feeds,
    fixElapsedMs: int,
    clock: LocalTime,
    battery: BatteryState,
    sensors: SensorReadings)

  /**
   * The request sent, the backlog saved at the end of the iteration (`None`:
   * the key is absent), and the text of the error notification, if one was raised.
   */
  datatype CycleResult = CycleResult(payload: seq<Entry>, saved: Option<seq<Entry>>, notification: Option<string>)

  /** The entry the iteration assembles from the platform's reads. */
  function FreshSample(p: Platform): Entry {
    var acquisition := FreshLocation(p.feeds, p.sdkInt);
    FreshEntry(CurrentTimeAsIso8601(p.clock), acquisition.fix,
               CalculatedFixTime(acquisition.fix, p.fixElapsedMs), p.battery, p.sensors)
  }

  /**
   * One iteration, starting from the saved backlog `saved`, with `sample` the
   * entry the iteration assembles (`FreshSample` of the platform's reads). The request is the drained backlog in
   * order followed by exactly one fresh entry. The backlog key is removed
   * before sending, so a success leaves nothing saved; a failure saves the
   * newest `min(n, 1000)` entries of the request and notifies the status.
   */
  function DrainAndSend<E>(saved: Option<seq<Entry>>, sample: Entry, exchange: Exchange<E>): (c: CycleResult)
    ensures |c.payload| == |Backlog(saved)| + 1
    ensures c.payload[..|Backlog(saved)|] == Backlog(saved)
    ensures c.payload[|Backlog(saved)|] == sample
    ensures exchange.Answered? ==> c.saved.None? && c.notification.None?
    ensures exchange.Failed? ==> c.saved == Some(KeepNewest(c.payload))
    ensures exchange.Failed? ==> c.notification == Some(ErrorMessage(exchange.error))
  {
    var backlog := Backlog(saved);
    var afterDrain: Option<seq<Entry>> := None;
    var request := BuildTelemetryJson(backlog, sample);
    assert request[..|backlog|] == backlog;
    var sent := SendTelemetry(request, afterDrain, exchange);
    var notification := match sent.callback
      case OnSuccess => None
      case OnError(message) => Some(message);
    CycleResult(request, sent.saved, notification)
  }

  /**
   * The entry an iteration appends: dated with the colon-offset timestamp,
   * with every cellular field null, with every location field null when no
   * provider gave a fix, and, when the active providers' readings name their
   * provider, with a time to fix exactly when the GPS attempt resolved or
   * PASSIVE relayed a GPS fix after every active provider failed.
   */
  lemma FreshSampleShape(p: Platform)
    ensures FreshSample(p).date == CurrentTimeAsIso8601(p.clock)
    ensures FreshSample(p).cellular == CellularJson(None, None, None, None)
    ensures FreshLocation(p.feeds, p.sdkInt).fix.None? ==>
      FreshSample(p).location == LocationJson(None, None, None, None, None, None, None, None)
    ensures var a := FreshLocation(p.feeds, p.sdkInt);
      Tagged(p.feeds) ==>
        (FreshSample(p).location.timeToFix.Some? <==>
          a.fix.Some? &&
          (a.tried == [Gps] || (a.tried[|a.tried| - 1] == Passive && a.fix.value.provider == Gps)))
  {
    if Tagged(p.feeds) {
      TimeToFixMeansGpsResolved(p.feeds, p.sdkInt, p.fixElapsedMs);
    }
  }

  /**
   * The retry buffer stays within its cap at rest, and a request never holds
   * more than the cap plus the one fresh entry.
   */
  lemma CycleKeepsBufferBounded<E>(saved: Option<seq<Entry>>, sample: Entry, exchange: Exchange<E>)
    requires saved.Some? ==> |saved.value| <= MaxFailedRequests
    ensures |DrainAndSend(saved, sample, exchange).payload| <= MaxFailedRequests + 1
    ensures DrainAndSend(saved, sample, exchange).saved.Some? ==>
      |DrainAndSend(saved, sample, exchange).saved.value| <= MaxFailedRequests
  {
  }

  lemma FailedCycleSaves<E>(saved: Option<seq<Entry>>, sample: Entry, error: VolleyError)
    ensures DrainAndSend<E>(saved, sample, Failed(error)).saved == Some(KeepNewest(Backlog(saved) + [sample]))
  {
  }

  /** A failure after a trimmed backlog saves what one failure after the untrimmed backlog would. */
  lemma FailedAfterTrim<E>(last: Option<seq<Entry>>, prior: seq<Entry>, sample: Entry, error: VolleyError)
    requires last == Some(KeepNewest(prior))
    ensures DrainAndSend<E>(last, sample, Failed(error)).saved == Some(KeepNewest(prior + [sample]))
  {
    FailedCycleSaves<E>(last, sample, error);
    KeepNewestAfterAppend(prior, [sample]);
  }

  /**
   * Iteration `i` of a run of failures, starting from what iterations `0..i`
   * left saved, saves the newest entries of the backlog and the first `i + 1`
   * fresh entries, and notifies the failure.
   */
  lemma FailedIteration<E>(saved: Option<seq<Entry>>, entries: seq<Entry>, i: nat, last: Option<seq<Entry>>, error: VolleyError)
    requires i < |entries|
    requires i == 0 ==> last == saved
    requires i > 0 ==> last == Some(KeepNewest(Backlog(saved) + entries[..i]))
    ensures DrainAndSend<E>(last, entries[i], Failed(error)).saved == Some(KeepNewest(Backlog(saved) + entries[..i + 1]))
    ensures DrainAndSend<E>(last, entries[i], Failed(error)).notification == Some(ErrorMessage(error))
  {
    AppendNext(Backlog(saved), entries, i);
    if i == 0 {
      FailedCycleSaves<E>(last, entries[i], error);
    } else {
      FailedAfterTrim<E>(last, Backlog(saved) + entries[..i], entries[i], error);
    }
  }

  /**
   * Iteration `i` of a run of failures, run on what the earlier iterations
   * left saved: what it saves and what it notifies.
   */
  method FailIteration<E>(saved: Option<seq<Entry>>, entries: seq<Entry>, i: nat, last: Option<seq<Entry>>, error: VolleyError)
    returns (next: Option<seq<Entry>>, notification: string)
    requires i < |entries|
    requires i == 0 ==> last == saved
    requires i > 0 ==> last == Some(KeepNewest(Backlog(saved) + entries[..i]))
    ensures next == Some(KeepNewest(Backlog(saved) + entries[..i + 1]))
    ensures notification == ErrorMessage(error)
  {
    FailedIteration<E>(saved, entries, i, last, error);
    var c := DrainAndSend<E>(last, entries[i], Failed(error));
    next := c.saved;
    notification := c.notification.value;
  }

  /**
   * The service loop over consecutive iterations, with fresh entries
   * `entries`, whose deliveries all fail, assuming each failure's save lands
   * before the next iteration drains the backlog (the service does not wait
   * for the answer before sleeping, so on a short interval or a slow answer
   * the saves can interleave with later drains). The saved backlog ends as the
   * newest `min(|backlog| + |entries|, 1000)` entries of the sequence
   * `backlog + entries`, in order: what is dropped is always older than what
   * is kept.
   * Every iteration raises the failure's notification.
   */
  method FailingIterations<E>(saved: Option<seq<Entry>>, entries: seq<Entry>, error: VolleyError)
    returns (last: Option<seq<Entry>>, notifications: seq<string>)
    ensures |entries| == 0 ==> last == saved
    ensures |entries| > 0 ==> last == Some(KeepNewest(Backlog(saved) + entries))
    ensures |notifications| == |entries|
    ensures forall i :: 0 <= i < |notifications| ==> notifications[i] == ErrorMessage(error)
  {
    last := saved;
    notifications := [];
    var i := 0;
    while i < |entries|
      invariant 0 <= i <= |entries|
      invariant i == 0 ==> last == saved
      invariant i > 0 ==> last == Some(KeepNewest(Backlog(saved) + entries[..i]))
      invariant |notifications| == i
      invariant forall j :: 0 <= j < i ==> notifications[j] == ErrorMessage(error)
    {
      var notification;
      last, notification := FailIteration<E>(saved, entries, i, last, error);
      notifications := notifications + [notification];
      i := i + 1;
    }
    assert entries[..i] == entries;
  }

  /** An HTTP 500 with nothing saved: exactly the fresh entry is saved and the notification reads "Error code: 500". */
  lemma ServerErrorWithEmptyBacklog<E>(sample: Entry)
    ensures var c := DrainAndSend<E>(None, sample, Failed(VolleyError(Some(NetworkResponse(500)))));
      c.saved == Some([sample]) && c.notification == Some("Error code: 500")
  {
    var c := DrainAndSend<E>(None, sample, Failed(VolleyError(Some(NetworkResponse(500)))));
    assert c.payload == [sample];
    ErrorMessageFor500();
  }

  /** A success after three saved entries sends four and leaves nothing saved. */
  lemma SuccessClearsBacklog<E>(backlog: seq<Entry>, sample: Entry, body: Option<seq<E>>)
    requires |backlog| == 3
    ensures var c := DrainAndSend(Some(backlog), sample, Answered(body));
      |c.payload| == 4 && c.saved.None? && c.notification.None?
  {
  }

  /** 1500 saved entries and a failed delivery: saved entries 501 to 1499 and the fresh one are kept. */
  lemma FailureTrimsLongBacklog<E>(backlog: seq<Entry>, sample: Entry, error: VolleyError)
    requires |backlog| == 1500
    ensures DrainAndSend<E>(Some(backlog), sample, Failed(error)).saved == Some(backlog[501..] + [sample])
  {
    var c := DrainAndSend<E>(Some(backlog), sample, Failed(error));
    assert c.payload == backlog + [sample];
    assert c.payload[501..] == backlog[501..] + [sample];
  }
}

=== FILE: decimal.dfy ===
/**
 * Decimal spelling of integers, as Kotlin's string templates print an `Int`
 * and as a date formatter pads a field with leading zeros, together with the
 * parser that reads such a spelling back.
 */
module Decimal {

  predicate IsDigit(c: char) {
    '0' <= c <= '9'
  }

  predicate AllDigits(s: string) {
    forall i :: 0 <= i < |s| ==> IsDigit(s[i])
  }

  function DigitChar(d: nat): (c: char)
    requires d < 10
    ensures IsDigit(c)
  {
    ('0' as int + d) as char
  }

  function DigitValue(c: char): (d: nat)
    requires IsDigit(c)
    ensures d < 10 && DigitChar(d) == c
  {
    (c as int - '0' as int) as nat
  }

  function Pow10(w: nat): (p: nat)
    ensures p >= 1
  {
    if w == 0 then 1 else 10 * Pow10(w - 1)
  }

  /** The shortest decimal spelling of `n` (no leading zero except for `0` itself). */
  function NatToString(n: nat): (s: string)
    ensures |s| >= 1 && AllDigits(s)
    ensures |s| > 1 ==> s[0] != '0'
  {
    if n < 10 then [DigitChar(n)] else NatToString(n / 10) + [DigitChar(n % 10)]
  }

  /** The value of a string of decimal digits, read left to right. */
  function ParseDigits(s: string): nat
    requires AllDigits(s)
  {
    if |s| == 0 then 0 else 10 * ParseDigits(s[..|s| - 1]) + DigitValue(s[|s| - 1])
  }

  /** `n.toString()` for a Kotlin `Int`. */
  function IntToString(n: int): (s: string)
    ensures |s| >= 1
  {
    if n < 0 then "-" + NatToString(-n) else NatToString(n)
  }

  /** Reads back an optionally negative decimal spelling. */
  function ParseInt(s: string): int
    requires |s| >= 1
    requires s[0] == '-' ==> AllDigits(s[1..])
    requires s[0] != '-' ==> AllDigits(s)
  {
    if s[0] == '-' then -(ParseDigits(s[1..]) as int) else ParseDigits(s)
  }

  /** `n` spelled with at least `width` digits, padded on the left with zeros. */
  function Pad(n: nat, width: nat): (s: string)
    ensures AllDigits(s) && |s| >= 1 && |s| >= width
  {
    var digits := NatToString(n);
    Zeros(if |digits| < width then width - |digits| else 0) + digits
  }

  function Zeros(k: nat): (z: string)
    ensures |z| == k && AllDigits(z)
    ensures forall i :: 0 <= i < k ==> z[i] == '0'
  {
    if k == 0 then "" else "0" + Zeros(k - 1)
  }

  lemma {:induction false} NatToStringRoundTrip(n: nat)
    ensures ParseDigits(NatToString(n)) == n
  {
    if n >= 10 {
      var s := NatToString(n);
      var head := NatToString(n / 10);
      assert s[..|s| - 1] == head;
      NatToStringRoundTrip(n / 10);
    }
  }

  /** Parsing the printed form of any `Int` gives the `Int` back. */
  lemma IntToStringRoundTrip(n: int)
    ensures IntToString(n)[0] == '-' ==> AllDigits(IntToString(n)[1..])
    ensures IntToString(n)[0] != '-' ==> AllDigits(IntToString(n))
    ensures ParseInt(IntToString(n)) == n
  {
    var s := IntToString(n);
    if n < 0 {
      assert s[1..] == NatToString(-n);
      NatToStringRoundTrip(-n);
    } else {
      assert IsDigit(s[0]);
      NatToStringRoundTrip(n);
    }
  }

  /** Distinct `Int`s print differently. */
  lemma IntToStringInjective(a: int, b: int)
    ensures IntToString(a) == IntToString(b) ==> a == b
  {
    IntToStringRoundTrip(a);
    IntToStringRoundTrip(b);
  }

  lemma {:induction false} NatToStringFits(n: nat, width: nat)
    requires 1 <= width && n < Pow10(width)
    ensures |NatToString(n)| <= width
  {
    if n >= 10 {
      NatToStringFits(n / 10, width - 1);
    }
  }

  lemma {:induction false} LeadingZerosIgnored(k: nat, t: string)
    requires AllDigits(t)
    ensures ParseDigits(Zeros(k) + t) == ParseDigits(t)
    decreases |t|, k
  {
    var s := Zeros(k) + t;
    if |t| == 0 {
      assert s == Zeros(k);
      if k > 0 {
        assert s[..|s| - 1] == Zeros(k - 1) + t;
        LeadingZerosIgnored(k - 1, t);
      }
    } else {
      assert s[..|s| - 1] == Zeros(k) + t[..|t| - 1];
      LeadingZerosIgnored(k, t[..|t| - 1]);
    }
  }

  /**
   * A padded field of a value below 10^width is exactly `width` digits long
   * and reads back as the value.
   */
  lemma PadRoundTrip(n: nat, width: nat)
    requires 1 <= width && n < Pow10(width)
    ensures |Pad(n, width)| == width
    ensures ParseDigits(Pad(n, width)) == n
  {
    NatToStringFits(n, width);
    var digits := NatToString(n);
    LeadingZerosIgnored(width - |digits|, digits);
    NatToStringRoundTrip(n);
  }
}

=== FILE: delivery.dfy ===
/**
 * The delivery client: one POST of the payload, and what each of the two
 * outcomes does to the retry buffer and to the caller.
 *
 * The HTTP exchange itself is an input. Either the collector answered with a
 * success status and the body went to `parseNetworkResponse` (the JSON parse
 * of the body is itself an input: `None` when it is not a JSON array), or the
 * request failed with an error that may carry the response's status code.
 */
module Delivery {
  import opened Wrappers
  import opened JvmInt
  import opened Decimal
  import opened RetryBuffer

  const ErrorPrefix: string := "Error code: "
  const UnknownStatus: string := "Unknown"

  const HeaderClientId: string := "CF-Access-Client-Id"
  const HeaderClientSecret: string := "CF-Access-Client-Secret"
  const HeaderContentType: string := "Content-Type"
  const JsonContentType: string := "application/json"

  datatype NetworkResponse = NetworkResponse(statusCode: Int32)

  /** A failed request; `networkResponse` is null when no response arrived. */
  datatype VolleyError = VolleyError(networkResponse: Option<NetworkResponse>)

  /** What a request's parse step hands back to the request queue. */
  datatype Response<T> = Success(result: T) | Error(error: VolleyError)

  datatype Exchange<E> = Answered(parsed: Option<seq<E>>) | Failed(error: VolleyError)

  /** Which of the caller's callbacks runs, with the error text for `onError`. */
  datatype Callback = OnSuccess | OnError(message: string)

  /** The saved backlog after the send, and the callback that ran. */
  datatype Sent<T> = Sent(saved: Option<seq<T>>, callback: Callback)

  /** `"Error code: " + (statusCode ?: "Unknown")`. */
  function ErrorMessage(error: VolleyError): (m: string)
    ensures |m| > |ErrorPrefix| && m[..|ErrorPrefix|] == ErrorPrefix
    ensures error.networkResponse.None? ==> m[|ErrorPrefix|..] == UnknownStatus
    ensures error.networkResponse.Some? ==> m[|ErrorPrefix|..] == IntToString(error.networkResponse.value.statusCode)
  {
    ErrorPrefix + match error.networkResponse
      case Some(response) => IntToString(response.statusCode)
      case None => UnknownStatus
  }

  /**
   * The message identifies the failure: it says "Unknown" exactly when no
   * response arrived, and otherwise the status code reads back from it, so
   * distinct status codes give distinct messages.
   */
  lemma ErrorMessageIdentifiesStatus(a: VolleyError, b: VolleyError)
    ensures ErrorMessage(a)[|ErrorPrefix|..] == UnknownStatus <==> a.networkResponse.None?
    ensures ErrorMessage(a) == ErrorMessage(b) <==> a == b
  {
    StatusIsNotUnknown(a);
    StatusIsNotUnknown(b);
    if a.networkResponse.Some? && b.networkResponse.Some? {
      IntToStringInjective(a.networkResponse.value.statusCode, b.networkResponse.value.statusCode);
    }
  }

  /** The message for an HTTP 500 response. */
  lemma ErrorMessageFor500()
    ensures ErrorMessage(VolleyError(Some(NetworkResponse(500)))) == "Error code: 500"
  {
  }

  lemma StatusIsNotUnknown(e: VolleyError)
    ensures e.networkResponse.Some? ==> IntToString(e.networkResponse.value.statusCode) != UnknownStatus
  {
    if e.networkResponse.Some? {
      var s := IntToString(e.networkResponse.value.statusCode);
      IntToStringRoundTrip(e.networkResponse.value.statusCode);
      assert s[0] == '-' || IsDigit(s[0]);
    }
  }

  /**
   * `parseNetworkResponse`: a body that is a JSON array is the result, any
   * other body becomes an empty array; parsing never reports an error.
   */
  function ParseNetworkResponse<E>(parsed: Option<seq<E>>): (r: Response<seq<E>>)
    ensures r.Success?
    ensures parsed.Some? ==> r.result == parsed.value
    ensures parsed.None? ==> r.result == []
  {
    match parsed
    case Some(entries) => Success(entries)
    case None => Success([])
  }

  /** `getHeaders`: the two access credentials and the JSON content type, nothing else. */
  function GetHeaders(clientId: string, clientSecret: string): (h: map<string, string>)
    ensures h.Keys == {HeaderClientId, HeaderClientSecret, HeaderContentType}
    ensures h[HeaderClientId] == clientId
    ensures h[HeaderClientSecret] == clientSecret
    ensures h[HeaderContentType] == JsonContentType
  {
    map[HeaderClientId := clientId, HeaderClientSecret := clientSecret, HeaderContentType := JsonContentType]
  }

  /** The error listener: save the newest entries of the request, then report the status. */
  function OnFailure<T>(jsonRequest: seq<T>, error: VolleyError): Sent<T> {
    Sent(Some(KeepNewest(jsonRequest)), OnError(ErrorMessage(error)))
  }

  /**
   * `sendTelemetry`. A success answer, whatever its body, runs `onSuccess`
   * and leaves the saved backlog as it was; a failure overwrites the saved
   * backlog with the newest `min(n, 1000)` entries of the request, in order,
   * and runs `onError` with the status message.
   */
  function SendTelemetry<T, E>(jsonRequest: seq<T>, saved: Option<seq<T>>, exchange: Exchange<E>): (s: Sent<T>)
    ensures exchange.Answered? ==> s.saved == saved && s.callback == OnSuccess
    ensures exchange.Failed? ==> s.callback == OnError(ErrorMessage(exchange.error))
    ensures exchange.Failed? ==> s.saved.Some? && |s.saved.value| <= MaxFailedRequests
    ensures exchange.Failed? ==>
      s.saved.value == jsonRequest[|jsonRequest| - Min(|jsonRequest|, MaxFailedRequests)..]
  {
    match exchange
    case Answered(parsed) =>
      (match ParseNetworkResponse(parsed)
       case Success(_) => Sent(saved, OnSuccess))
    case Failed(error) => OnFailure(jsonRequest, error)
  }
}

=== FILE: jvm_int.dfy ===
/**
 * The JVM's 32-bit `Int`: two's-complement wrap-around on overflow and
 * division that truncates toward zero. Dafny's `int` is unbounded and its
 * `/` is Euclidean, so both are written out here.
 */
module JvmInt {

  const IntMin: int := -0x8000_0000
  const IntMax: int := 0x7fff_ffff
  const Modulus: int := 0x1_0000_0000

  /** A value a Kotlin `Int` can hold. */
  type Int32 = x: int | IntMin <= x <= IntMax

  /** The `Int` that an exact result `x` wraps to: the one congruent to `x` modulo 2^32. */
  function Wrap(x: int): (r: Int32)
    ensures (x - r) % Modulus == 0
    ensures IntMin <= x <= IntMax ==> r == x
  {
    (x - IntMin) % Modulus + IntMin
  }

  /** `a * b` on two `Int`s. */
  function Mul(a: Int32, b: Int32): Int32 {
    Wrap(a * b)
  }

  /**
   * The quotient of `a / b` for a positive divisor as the JVM computes it:
   * rounded toward zero, so the remainder `a - q * b` takes the sign of `a`.
   */
  function Quot(a: int, b: int): (q: int)
    requires b > 0
    ensures a >= 0 ==> 0 <= a - q * b < b
    ensures a < 0 ==> -b < a - q * b <= 0
  {
    if a >= 0 then
      a / b
    else
      var n := (-a) / b;
      assert -a == n * b + (-a) % b;
      -n
  }
}

=== FILE: location.dfy ===
/**
 * The location acquirer: one provider attempt that waits for the accuracy of
 * consecutive readings to settle, and the fallback across providers.
 *
 * A provider attempt is bounded by a 10-second timeout; the model receives the
 * readings the platform delivered within that window as a finite sequence, and
 * "the sequence ran out" is the timeout.
 */
module Location {
  import opened Wrappers

  /** Two consecutive readings whose accuracies differ by less than this settle the fix. */
  const MinAccuracyDifference: real := 5.0
  /** `Build.VERSION_CODES.S` (Android 12): the first platform level with a fused provider. */
  const VersionCodeS: int := 31

  datatype Provider = Gps | Network | Fused | Passive {
    /** The provider's name as `LocationManager` spells it and as it is emitted. */
    function Name(): string {
      match this
      case Gps => "gps"
      case Network => "network"
      case Fused => "fused"
      case Passive => "passive"
    }
  }

  /** One location reading (`android.location.Location`), floats abstracted as reals. */
  datatype Fix = Fix(
    latitude: real,
    longitude: real,
    speed: real,
    accuracy: real,
    altitude: real,
    bearing: real,
    provider: Provider)

  /**
   * What a subscription to one provider yields: either the request for updates
   * is refused (a `SecurityException`), or the readings that arrive, in order,
   * before the timeout.
   */
  datatype Subscription = Denied | Updates(readings: seq<Fix>)

  function AbsReal(x: real): real {
    if x < 0.0 then -x else x
  }

  /** Accuracy `current` is close enough to its predecessor `previous` to accept the fix. */
  predicate Settled(previous: real, current: real) {
    AbsReal(current - previous) < MinAccuracyDifference
  }

  /** The listener's reaction to one reading: resolve the attempt, or keep waiting remembering an accuracy. */
  datatype Step = Resolve(fix: Fix) | Wait(lastAccuracy: real)

  /** `onLocationChanged` of the stabilising listener, given its `lastAccuracy`. */
  function OnLocationChanged(lastAccuracy: Option<real>, location: Fix): Step {
    if lastAccuracy.None? then Wait(location.accuracy)
    else if Settled(lastAccuracy.value, location.accuracy) then Resolve(location)
    else Wait(location.accuracy)
  }

  // ---------------------------------------------------------------------------
  // The settling rule stated over indices, independently of the listener.

  /** Reading `i` settles: it has a predecessor and its accuracy is within 5 of it. */
  predicate SettlesAt(readings: seq<Fix>, i: int) {
    1 <= i < |readings| && Settled(readings[i - 1].accuracy, readings[i].accuracy)
  }

  /** Reading `i` is the first reading that settles. */
  predicate FirstSettled(readings: seq<Fix>, i: int) {
    SettlesAt(readings, i) && forall j :: 0 <= j < i ==> !SettlesAt(readings, j)
  }

  predicate NeverSettles(readings: seq<Fix>) {
    forall i :: 0 <= i < |readings| ==> !SettlesAt(readings, i)
  }

  /** The accuracy of the reading before index `k`, if there is one. */
  function Previous(readings: seq<Fix>, k: nat): Option<real>
    requires k <= |readings|
  {
    if k == 0 then None else Some(readings[k - 1].accuracy)
  }

  // ---------------------------------------------------------------------------
  // One provider attempt.

  /** Feeds readings `k..` to the listener whose state is `lastAccuracy`. */
  function Scan(readings: seq<Fix>, k: nat, lastAccuracy: Option<real>): Option<Fix>
    requires k <= |readings|
    decreases |readings| - k
  {
    if k == |readings| then None
    else match OnLocationChanged(lastAccuracy, readings[k])
      case Resolve(fix) => Some(fix)
      case Wait(accuracy) => Scan(readings, k + 1, Some(accuracy))
  }

  /** The outcome of listening to `readings` from a fresh listener. */
  function Stabilise(readings: seq<Fix>): Option<Fix> {
    Scan(readings, 0, None)
  }

  /** `requestLocationByProvider`: null when the subscription is refused or no reading settles in time. */
  function TryProvider(subscription: Subscription): Option<Fix> {
    match subscription
    case Denied => None
    case Updates(readings) => Stabilise(readings)
  }

  lemma FirstSettledUnique(readings: seq<Fix>, i: int, j: int)
    requires FirstSettled(readings, i) && FirstSettled(readings, j)
    ensures i == j
  {
  }

  /**
   * Scanning from `k` with the listener remembering reading `k - 1`, when no
   * earlier reading settled, resolves exactly at the first settling reading.
   */
  lemma {:induction false} ScanResolvesAtFirstSettled(readings: seq<Fix>, k: nat)
    requires k <= |readings|
    requires forall j :: 0 <= j < k ==> !SettlesAt(readings, j)
    ensures Scan(readings, k, Previous(readings, k)).None? <==> NeverSettles(readings)
    ensures Scan(readings, k, Previous(readings, k)).Some? ==>
      exists i :: k <= i < |readings| && FirstSettled(readings, i) &&
        Scan(readings, k, Previous(readings, k)) == Some(readings[i])
    decreases |readings| - k
  {
    if k < |readings| {
      match OnLocationChanged(Previous(readings, k), readings[k])
      case Resolve(fix) =>
        assert SettlesAt(readings, k);
        assert FirstSettled(readings, k);
      case Wait(accuracy) =>
        assert !SettlesAt(readings, k);
        assert Previous(readings, k + 1) == Some(accuracy);
        ScanResolvesAtFirstSettled(readings, k + 1);
    }
  }

  /**
   * The stabilisation rule: an attempt resolves with reading `i` exactly when
   * `i` is the first reading (never the very first one) whose accuracy is within
   * 5 of its predecessor's, and yields null when no reading settles.
   */
  lemma StabiliseSpec(readings: seq<Fix>)
    ensures Stabilise(readings).None? <==> NeverSettles(readings)
    ensures forall i :: FirstSettled(readings, i) ==> Stabilise(readings) == Some(readings[i])
    ensures Stabilise(readings).Some? ==> exists i :: FirstSettled(readings, i)
  {
    ScanResolvesAtFirstSettled(readings, 0);
    forall i | FirstSettled(readings, i)
      ensures Stabilise(readings) == Some(readings[i])
    {
      var w :| 0 <= w < |readings| && FirstSettled(readings, w) && Stabilise(readings) == Some(readings[w]);
      FirstSettledUnique(readings, i, w);
    }
  }

  /**
   * Once resolved the listener is removed: readings arriving later do not
   * change the outcome of an attempt.
   */
  lemma StabiliseIgnoresLaterReadings(readings: seq<Fix>, later: seq<Fix>)
    requires Stabilise(readings).Some?
    ensures Stabilise(readings + later) == Stabilise(readings)
  {
    StabiliseSpec(readings);
    var i :| FirstSettled(readings, i);
    var all := readings + later;
    assert forall j :: 0 <= j < |readings| ==> all[j] == readings[j];
    assert forall j :: 0 <= j <= i ==> (SettlesAt(all, j) <==> SettlesAt(readings, j));
    assert FirstSettled(all, i);
    StabiliseSpec(all);
  }

  /**
   * The listener as written, with `lastAccuracy` as mutable state: it always
   * holds the accuracy of the previous reading, and the attempt resolves with
   * the first settling reading.
   */
  method ListenForFix(subscription: Subscription) returns (fix: Option<Fix>)
    ensures subscription.Denied? ==> fix.None?
    ensures subscription.Updates? ==> (fix.None? <==> NeverSettles(subscription.readings))
    ensures subscription.Updates? ==>
      forall i :: FirstSettled(subscription.readings, i) ==> fix == Some(subscription.readings[i])
    ensures fix == TryProvider(subscription)
  {
    if subscription.Denied? {
      return None;
    }
    var readings := subscription.readings;
    var lastAccuracy: Option<real> := None;
    var k := 0;
    while k < |readings|
      invariant k <= |readings|
      invariant lastAccuracy == Previous(readings, k)
      invariant forall j :: 0 <= j < k ==> !SettlesAt(readings, j)
    {
      match OnLocationChanged(lastAccuracy, readings[k])
      case Resolve(location) =>
        assert FirstSettled(readings, k);
        forall i | FirstSettled(readings, i)
          ensures i == k
        {
          FirstSettledUnique(readings, i, k);
        }
        StabiliseSpec(readings);
        return Some(location);
      case Wait(accuracy) =>
        lastAccuracy := Some(accuracy);
        k := k + 1;
    }
    StabiliseSpec(readings);
    return None;
  }

  // ---------------------------------------------------------------------------
  // Provider fallback.

  /** The subscriptions each provider would yield during one cycle. */
  datatype Feeds = Feeds(gps: Subscription, network: Subscription, fused: Subscription, passive: Subscription) {
    function Of(p: Provider): Subscription {
      match p
      case Gps => gps
      case Network => network
      case Fused => fused
      case Passive => passive
    }
  }

  /** The providers in the order they are tried on platform level `sdkInt`. */
  function ProviderOrder(sdkInt: int): seq<Provider> {
    if sdkInt >= VersionCodeS then [Gps, Network, Fused, Passive] else [Gps, Network, Passive]
  }

  /** The fix obtained and the providers tried, in order. */
  datatype Acquisition = Acquisition(fix: Option<Fix>, tried: seq<Provider>)

  /**
   * Tries `order` front to back and stops at the first non-null result; the
   * last provider's result is returned whatever it is.
   */
  function Fallback(order: seq<Provider>, feeds: Feeds): (a: Acquisition)
    requires |order| > 0
    ensures 0 < |a.tried| <= |order| && a.tried == order[..|a.tried|]
    ensures forall i :: 0 <= i < |a.tried| - 1 ==> TryProvider(feeds.Of(a.tried[i])).None?
    ensures a.fix == TryProvider(feeds.Of(a.tried[|a.tried| - 1]))
    ensures a.fix.None? ==> a.tried == order
    decreases |order|
  {
    var first := TryProvider(feeds.Of(order[0]));
    if first.Some? || |order| == 1 then
      Acquisition(first, [order[0]])
    else
      var rest := Fallback(order[1..], feeds);
      Acquisition(rest.fix, [order[0]] + rest.tried)
  }

  lemma FallbackStep(order: seq<Provider>, feeds: Feeds)
    requires |order| >= 2
    ensures Fallback(order, feeds).fix ==
      if TryProvider(feeds.Of(order[0])).Some? then TryProvider(feeds.Of(order[0]))
      else Fallback(order[1..], feeds).fix
  {
  }

  /** `getFreshLocation` / `getLocation`: the fallback over the platform's provider order. */
  function FreshLocation(feeds: Feeds, sdkInt: int): Acquisition {
    Fallback(ProviderOrder(sdkInt), feeds)
  }

  /** The same decision as `getLocation` writes it: an explicit chain of early returns. */
  function FreshLocationChain(feeds: Feeds, sdkInt: int): Option<Fix> {
    var gps := TryProvider(feeds.gps);
    if gps.Some? then gps
    else
      var network := TryProvider(feeds.network);
      if network.Some? then network
      else if sdkInt >= VersionCodeS && TryProvider(feeds.fused).Some? then TryProvider(feeds.fused)
      else TryProvider(feeds.passive)
  }

  /** The early-return chain of `getLocation` decides exactly as the ordered fallback of `getFreshLocation`. */
  lemma FreshLocationChainIsFallback(feeds: Feeds, sdkInt: int)
    ensures FreshLocationChain(feeds, sdkInt) == FreshLocation(feeds, sdkInt).fix
  {
    if sdkInt >= VersionCodeS {
      ChainWithFused(feeds);
    } else {
      ChainWithoutFused(feeds);
    }
  }

  lemma ChainWithFused(feeds: Feeds)
    ensures Fallback([Gps, Network, Fused, Passive], feeds).fix ==
      if TryProvider(feeds.gps).Some? then TryProvider(feeds.gps)
      else if TryProvider(feeds.network).Some? then TryProvider(feeds.network)
      else if TryProvider(feeds.fused).Some? then TryProvider(feeds.fused)
      else TryProvider(feeds.passive)
  {
    var order := [Gps, Network, Fused, Passive];
    assert order[1..] == [Network, Fused, Passive];
    assert order[1..][1..] == [Fused, Passive];
    assert order[1..][1..][1..] == [Passive];
    FallbackStep(order, feeds);
    FallbackStep(order[1..], feeds);
    FallbackStep(order[1..][1..], feeds);
  }

  lemma ChainWithoutFused(feeds: Feeds)
    ensures Fallback([Gps, Network, Passive], feeds).fix ==
      if TryProvider(feeds.gps).Some? then TryProvider(feeds.gps)
      else if TryProvider(feeds.network).Some? then TryProvider(feeds.network)
      else TryProvider(feeds.passive)
  {
    var order := [Gps, Network, Passive];
    assert order[1..] == [Network, Passive];
    assert order[1..][1..] == [Passive];
    FallbackStep(order, feeds);
    FallbackStep(order[1..], feeds);
  }

  /**
   * The fallback order: GPS first; FUSED only on level S or later; PASSIVE
   * only after every other provider gave null; a fix is obtained exactly when
   * some provider in the order yields one.
   */
  lemma FreshLocationOrder(feeds: Feeds, sdkInt: int)
    ensures FreshLocation(feeds, sdkInt).tried[0] == Gps
    ensures Fused in FreshLocation(feeds, sdkInt).tried ==> sdkInt >= VersionCodeS
    ensures FreshLocation(feeds, sdkInt).fix.Some? <==>
      exists p :: p in ProviderOrder(sdkInt) && TryProvider(feeds.Of(p)).Some?
    ensures Passive in FreshLocation(feeds, sdkInt).tried ==>
      FreshLocation(feeds, sdkInt).tried == ProviderOrder(sdkInt)
  {
  }

  /**
   * The GPS, NETWORK and FUSED providers name themselves on every reading
   * they deliver. PASSIVE relays fixes that other providers computed, named
   * after those providers, so its readings are not constrained.
   */
  predicate Tagged(feeds: Feeds) {
    forall p: Provider :: p != Passive && feeds.Of(p).Updates? ==>
      forall i :: 0 <= i < |feeds.Of(p).readings| ==> feeds.Of(p).readings[i].provider == p
  }

  /**
   * With tagged readings, a fix obtained from an active provider names the
   * provider whose attempt resolved.
   */
  lemma FixNamesResolvingProvider(feeds: Feeds, sdkInt: int)
    requires Tagged(feeds)
    requires FreshLocation(feeds, sdkInt).fix.Some?
    ensures var a := FreshLocation(feeds, sdkInt);
      a.tried[|a.tried| - 1] != Passive ==> a.fix.value.provider == a.tried[|a.tried| - 1]
  {
    var a := FreshLocation(feeds, sdkInt);
    var p := a.tried[|a.tried| - 1];
    if p != Passive {
      var readings := feeds.Of(p).readings;
      StabiliseSpec(readings);
      var i :| FirstSettled(readings, i);
      assert a.fix == Some(readings[i]);
    }
  }

  // ---------------------------------------------------------------------------
  // Time to fix.

  /**
   * `calculatedFixTime`: the milliseconds the acquisition took, kept only when
   * the fix came from GPS; other fixes have no meaningful acquisition delay.
   */
  function CalculatedFixTime(fix: Option<Fix>, elapsedMs: int): Option<int> {
    if fix.Some? && fix.value.provider == Gps then Some(elapsedMs) else None
  }
}

=== FILE: retry_buffer.dfy ===
/**
 * The retry buffer: the backlog of undelivered entries saved under the
 * `failed_requests` preference, capped at the newest 1000 entries.
 *
 * The saved value is an array of entries; an absent key is `None`. The
 * serialisation to a string and back is not part of this model, so entries
 * are of an opaque type `T`.
 */
module RetryBuffer {
  import opened Wrappers

  const MaxFailedRequests: nat := 1000

  function Min(a: nat, b: nat): nat {
    if a < b then a else b
  }

  /** `prefs.getString(KEY_FAILED_REQUESTS, "[]")`: the saved backlog, empty when nothing is saved. */
  function Backlog<T>(saved: Option<seq<T>>): (backlog: seq<T>)
    ensures saved.None? ==> backlog == []
    ensures saved.Some? ==> backlog == saved.value
  {
    saved.GetOr([])
  }

  /**
   * The entries kept when a delivery fails: the newest `min(n, 1000)` of the
   * `n` entries of the request, in their original order.
   */
  function KeepNewest<T>(request: seq<T>): (kept: seq<T>)
    ensures |kept| == Min(|request|, MaxFailedRequests)
    ensures kept == request[|request| - |kept|..]
  {
    if |request| > MaxFailedRequests then request[|request| - MaxFailedRequests..] else request
  }

  /**
   * The copying loop as written: when the request is over the cap, copy
   * positions `n - 1000 until n` one by one; otherwise keep the request itself.
   */
  method CopyNewest<T>(request: seq<T>) returns (toStore: seq<T>)
    ensures toStore == KeepNewest(request)
  {
    if |request| > MaxFailedRequests {
      toStore := [];
      var i := |request| - MaxFailedRequests;
      while i < |request|
        invariant |request| - MaxFailedRequests <= i <= |request|
        invariant |toStore| == i - (|request| - MaxFailedRequests)
        invariant forall j :: 0 <= j < |toStore| ==> toStore[j] == request[|request| - MaxFailedRequests + j]
      {
        toStore := toStore + [request[i]];
        i := i + 1;
      }
      assert toStore == request[|request| - MaxFailedRequests..];
    } else {
      toStore := request;
    }
  }

  /** Trimming what was already trimmed changes nothing. */
  lemma KeepNewestIdempotent<T>(request: seq<T>)
    ensures KeepNewest(KeepNewest(request)) == KeepNewest(request)
  {
  }

  /**
   * Trimming before appending loses nothing that trimming afterwards would
   * keep: a capped backlog followed by new entries trims to the same array as
   * the uncapped one.
   */
  lemma KeepNewestAfterAppend<T>(backlog: seq<T>, later: seq<T>)
    ensures KeepNewest(KeepNewest(backlog) + later) == KeepNewest(backlog + later)
  {
    var all := backlog + later;
    var capped := KeepNewest(backlog);
    if |backlog| > MaxFailedRequests {
      var left := capped + later;
      assert left == all[|backlog| - MaxFailedRequests..];
      var k := Min(|all|, MaxFailedRequests);
      assert |KeepNewest(left)| == k;
      assert KeepNewest(left) == left[|left| - k..];
      assert left[|left| - k..] == all[|all| - k..];
    }
  }

  /** Extending a backlog by the next entry of a run extends the drained prefix of the run by one. */
  lemma AppendNext<T>(backlog: seq<T>, entries: seq<T>, i: nat)
    requires i < |entries|
    ensures backlog + entries[..i] + [entries[i]] == backlog + entries[..i + 1]
    ensures i == 0 ==> backlog + [entries[0]] == backlog + entries[..1]
  {
  }

  /** 1500 drained entries and one fresh one that fail: positions 501 to 1500 are stored. */
  lemma KeepNewestOf1501<T>(request: seq<T>)
    requires |request| == 1501
    ensures KeepNewest(request) == request[501..]
    ensures KeepNewest(request)[0] == request[501]
    ensures KeepNewest(request)[999] == request[1500]
  {
  }
}

=== FILE: telemetry.dfy ===
/**
 * The telemetry assembler: the JSON objects of one sample, as the fields the
 * collector receives, and the request array that puts the backlog before the
 * fresh sample.
 *
 * A JSON `null` is `None`. Floats are reals; their rounding is not modelled.
 */
module Telemetry {
  import opened Wrappers
  import opened JvmInt
  import opened Location
  import opened Battery

  datatype LocationJson = LocationJson(
    latitude: Option<real>,
    longitude: Option<real>,
    speed: Option<real>,
    accuracy: Option<real>,
    altitude: Option<real>,
    provider: Option<string>,
    timeToFix: Option<real>,
    bearing: Option<real>)

  datatype BatteryJson = BatteryJson(
    voltage: Option<real>,
    current: Option<real>,
    temperature: Option<real>,
    level: Option<int>,
    charging: Option<bool>)

  datatype SensorsJson = SensorsJson(barometer: Option<real>, light: Option<real>, proximity: Option<real>)

  datatype CellularJson = CellularJson(
    networkType: Option<string>,
    signalStrength: Option<int>,
    signalPower: Option<int>,
    cellTower: Option<string>)

  /** One element of the request array. */
  datatype Entry = Entry(
    date: string,
    location: LocationJson,
    battery: BatteryJson,
    sensors: SensorsJson,
    cellular: CellularJson)

  /** What the battery broadcast and the battery manager report during one cycle. */
  datatype BatteryState = BatteryState(intent: Option<BatteryIntent>, currentNow: Int32)

  /** The first value of each single-shot sensor read, or null when the sensor is absent. */
  datatype SensorReadings = SensorReadings(pressure: Option<real>, light: Option<real>, proximity: Option<real>)

  /**
   * `buildLocationJson`: every location field is null without a fix and is the
   * fix's own value with one; `timeToFix` is the measured milliseconds in
   * seconds, null exactly when no time was measured.
   */
  function BuildLocationJson(location: Option<Fix>, calculatedFixTime: Option<int>): (j: LocationJson)
    ensures location.None? ==>
      j.latitude.None? && j.longitude.None? && j.speed.None? && j.accuracy.None? &&
      j.altitude.None? && j.provider.None? && j.bearing.None?
    ensures location.Some? ==>
      j.latitude == Some(location.value.latitude) && j.longitude == Some(location.value.longitude) &&
      j.speed == Some(location.value.speed) && j.accuracy == Some(location.value.accuracy) &&
      j.altitude == Some(location.value.altitude) && j.bearing == Some(location.value.bearing) &&
      j.provider == Some(location.value.provider.Name())
    ensures j.timeToFix.None? <==> calculatedFixTime.None?
    ensures j.timeToFix.Some? ==> j.timeToFix.value * 1000.0 == calculatedFixTime.value as real
  {
    match location
    case None =>
      LocationJson(None, None, None, None, None, None, TimeToFixSeconds(calculatedFixTime), None)
    case Some(l) =>
      LocationJson(Some(l.latitude), Some(l.longitude), Some(l.speed), Some(l.accuracy),
                   Some(l.altitude), Some(l.provider.Name()), TimeToFixSeconds(calculatedFixTime), Some(l.bearing))
  }

  function TimeToFixSeconds(calculatedFixTime: Option<int>): Option<real> {
    match calculatedFixTime
    case None => None
    case Some(ms) => Some(ms as real / 1000.0)
  }

  /**
   * `buildBatteryJson`: voltage and current are null when their reads are
   * unavailable, and otherwise the millivolt and microampere readings divided
   * by 1000; temperature and level are null exactly when their sentinel
   * reads are negative; charging follows the status mapping.
   */
  function BuildBatteryJson(b: BatteryState): (j: BatteryJson)
    ensures j.voltage.None? <==> IntExtra(b.intent, ExtraVoltage) < 0
    ensures j.voltage.Some? ==> j.voltage.value * 1000.0 == IntExtra(b.intent, ExtraVoltage) as real
    ensures j.current.None? <==> b.currentNow == IntMin
    ensures j.current.Some? ==> j.current.value * 1000.0 == b.currentNow as real
    ensures j.temperature.None? <==> IntExtra(b.intent, ExtraTemperature) < 0
    ensures j.temperature.Some? ==> j.temperature.value * 10.0 == IntExtra(b.intent, ExtraTemperature) as real
    ensures j.level.None? <==> Percentage(b.intent) < 0
    ensures j.level.Some? ==> j.level.value == Percentage(b.intent)
    ensures j.charging == ChargingForCode(IntExtra(b.intent, ExtraStatus))
  {
    EmittedTemperature(b.intent);
    BatteryJson(
      VoltageVolts(b.intent),
      CurrentMilliamps(b.currentNow),
      NonNegativeReal(TemperatureCelsius(b.intent)),
      NonNegativeInt(Percentage(b.intent)),
      IsCharging(b.intent))
  }

  function BuildSensorsJson(s: SensorReadings): SensorsJson {
    SensorsJson(s.pressure, s.light, s.proximity)
  }

  /** `buildCellularJson`: the cellular readers are stubs that always report null. */
  function BuildCellularJson(): CellularJson {
    CellularJson(None, None, None, None)
  }

  /** The fresh entry of one cycle. */
  function FreshEntry(date: string, location: Option<Fix>, calculatedFixTime: Option<int>,
                      battery: BatteryState, sensors: SensorReadings): Entry
  {
    Entry(date, BuildLocationJson(location, calculatedFixTime), BuildBatteryJson(battery),
          BuildSensorsJson(sensors), BuildCellularJson())
  }

  /**
   * `buildTelemetryJson`: every backlog entry, in order, followed by exactly
   * one fresh entry.
   */
  function BuildTelemetryJson(failedArray: seq<Entry>, newEntry: Entry): (request: seq<Entry>)
    ensures |request| == |failedArray| + 1
    ensures forall i :: 0 <= i < |failedArray| ==> request[i] == failedArray[i]
    ensures request[|failedArray|] == newEntry
  {
    failedArray + [newEntry]
  }

  /**
   * `timeToFix` is reported exactly for GPS fixes, as the elapsed milliseconds
   * divided by 1000.
   */
  lemma TimeToFixOnlyForGps(fix: Option<Fix>, elapsedMs: int)
    ensures BuildLocationJson(fix, CalculatedFixTime(fix, elapsedMs)).timeToFix.Some? <==>
      fix.Some? && fix.value.provider == Gps
    ensures BuildLocationJson(fix, CalculatedFixTime(fix, elapsedMs)).timeToFix.Some? ==>
      BuildLocationJson(fix, CalculatedFixTime(fix, elapsedMs)).timeToFix.value == elapsedMs as real / 1000.0
    ensures fix.None? ==>
      BuildLocationJson(fix, CalculatedFixTime(fix, elapsedMs)) == LocationJson(None, None, None, None, None, None, None, None)
  {
  }

  /**
   * When the active providers' readings name their provider, a cycle reports
   * a time to fix exactly when the GPS attempt itself resolved (no other
   * provider was tried), or when every active provider failed and PASSIVE
   * relayed a fix named after GPS. In the second case the elapsed time also
   * covers the failed attempts.
   */
  lemma TimeToFixMeansGpsResolved(feeds: Feeds, sdkInt: int, elapsedMs: int)
    requires Tagged(feeds)
    ensures var a := FreshLocation(feeds, sdkInt);
      BuildLocationJson(a.fix, CalculatedFixTime(a.fix, elapsedMs)).timeToFix.Some? <==>
        a.fix.Some? &&
        (a.tried == [Gps] || (a.tried[|a.tried| - 1] == Passive && a.fix.value.provider == Gps))
  {
    var a := FreshLocation(feeds, sdkInt);
    FreshLocationOrder(feeds, sdkInt);
    if a.fix.Some? {
      FixNamesResolvingProvider(feeds, sdkInt);
      var order := ProviderOrder(sdkInt);
      if a.tried[|a.tried| - 1] == Gps {
        assert order[|a.tried| - 1] == Gps;
        assert |a.tried| == 1;
        assert a.tried == [Gps];
      }
    }
  }

  /**
   * GPS and NETWORK (and FUSED) fail, and PASSIVE settles on two relayed GPS
   * readings: the entry reports the 25 s spent over all attempts as GPS time
   * to fix.
   */
  lemma PassiveRelayedGpsFix(first: Fix, second: Fix, sdkInt: int)
    requires first.provider == Gps && second.provider == Gps
    requires Settled(first.accuracy, second.accuracy)
    ensures var a := FreshLocation(Feeds(Denied, Denied, Denied, Updates([first, second])), sdkInt);
      a.tried == ProviderOrder(sdkInt) && a.fix == Some(second) &&
      BuildLocationJson(a.fix, CalculatedFixTime(a.fix, 25000)).timeToFix == Some(25.0)
  {
    var feeds := Feeds(Denied, Denied, Denied, Updates([first, second]));
    StabiliseSpec([first, second]);
    assert FirstSettled([first, second], 1);
    FreshLocationOrder(feeds, sdkInt);
    FreshLocationChainIsFallback(feeds, sdkInt);
  }
}

=== FILE: timestamp.dfy ===
/**
 * `getCurrentTimeAsISO8601`: the local time formatted with the pattern
 * `yyyy-MM-dd'T'HH:mm:ss.SSSZ`, whose `Z` prints the offset as `+HHmm`,
 * then rewritten so that the offset reads `+HH:mm`.
 *
 * The clock and the default time zone are inputs: `LocalTime` is the instant
 * already split into local fields together with its offset from UTC.
 */
module Timestamp {
  import opened Decimal

  datatype LocalTime = LocalTime(
    year: nat,
    month: nat,
    day: nat,
    hour: nat,
    minute: nat,
    second: nat,
    millis: nat,
    offsetMinutes: int)
  {
    predicate Valid() {
      1 <= month <= 12 && 1 <= day <= 31 && hour < 24 && minute < 60 && second < 60 &&
      millis < 1000 && -18 * 60 <= offsetMinutes <= 18 * 60
    }
  }

  /** The `Z` field: sign, two-digit hours and two-digit minutes of the offset. */
  function Rfc822Zone(offsetMinutes: int): string {
    [SignChar(offsetMinutes)] + Pad(Magnitude(offsetMinutes) / 60, 2) + Pad(Magnitude(offsetMinutes) % 60, 2)
  }

  function SignChar(offsetMinutes: int): char {
    if offsetMinutes < 0 then '-' else '+'
  }

  function Magnitude(offsetMinutes: int): nat {
    if offsetMinutes < 0 then -offsetMinutes else offsetMinutes
  }

  /** The date and time fields, `yyyy-MM-dd'T'HH:mm:ss.SSS`. */
  function DateTimeText(t: LocalTime): string {
    Concat([Pad(t.year, 4), "-", Pad(t.month, 2), "-", Pad(t.day, 2), "T",
            Pad(t.hour, 2), ":", Pad(t.minute, 2), ":", Pad(t.second, 2), ".",
            Pad(t.millis, 3)])
  }

  /** The pieces written one after another. */
  function Concat(parts: seq<string>): string {
    if |parts| == 0 then "" else parts[0] + Concat(parts[1..])
  }

  /** The formatter's output for the pattern `yyyy-MM-dd'T'HH:mm:ss.SSSZ`. */
  function FormatLocal(t: LocalTime): string {
    DateTimeText(t) + Rfc822Zone(t.offsetMinutes)
  }

  /**
   * Inserts a colon before the last two characters. `getCurrentTimeAsISO8601`
   * calls `substring(0, length - 2)`, which throws on a string shorter than two.
   */
  function InsertOffsetColon(s: string): (r: string)
    requires |s| >= 2
    ensures |r| == |s| + 1
    ensures r[..|s| - 2] == s[..|s| - 2]
    ensures r[|s| - 2] == ':'
    ensures r[|s| - 1..] == s[|s| - 2..]
  {
    s[..|s| - 2] + ":" + s[|s| - 2..]
  }

  /** Drops the character three from the end: undoes `InsertOffsetColon`. */
  function RemoveOffsetColon(r: string): string
    requires |r| >= 3
  {
    r[..|r| - 3] + r[|r| - 2..]
  }

  /** The colon insertion loses nothing: removing the colon gives the formatter's text back. */
  lemma InsertOffsetColonRoundTrip(s: string)
    requires |s| >= 2
    ensures RemoveOffsetColon(InsertOffsetColon(s)) == s
  {
  }

  lemma ZoneShape(offsetMinutes: int)
    requires -18 * 60 <= offsetMinutes <= 18 * 60
    ensures var z := Rfc822Zone(offsetMinutes);
      |z| == 5 && z[0] == SignChar(offsetMinutes) &&
      z[1..3] == Pad(Magnitude(offsetMinutes) / 60, 2) && z[3..] == Pad(Magnitude(offsetMinutes) % 60, 2)
  {
    var h := Pad(Magnitude(offsetMinutes) / 60, 2);
    var m := Pad(Magnitude(offsetMinutes) % 60, 2);
    PadRoundTrip(Magnitude(offsetMinutes) / 60, 2);
    PadRoundTrip(Magnitude(offsetMinutes) % 60, 2);
    var z := Rfc822Zone(offsetMinutes);
    assert z == [SignChar(offsetMinutes)] + h + m;
    assert z[1..3] == h;
    assert z[3..] == m;
  }

  /** `getCurrentTimeAsISO8601` for the instant and offset `t`. */
  function CurrentTimeAsIso8601(t: LocalTime): string {
    InsertOffsetColon(FormatLocal(t))
  }

  /**
   * The timestamp is the formatter's date and time unchanged followed by a
   * colon-separated offset `±HH:mm` whose hour and minute fields read back as
   * the offset.
   */
  lemma Iso8601OffsetShape(t: LocalTime)
    requires t.Valid()
    ensures var r := CurrentTimeAsIso8601(t);
      |r| == |DateTimeText(t)| + 6 &&
      r[..|r| - 6] == DateTimeText(t) &&
      r[|r| - 6] == SignChar(t.offsetMinutes) &&
      r[|r| - 3] == ':' &&
      AllDigits(r[|r| - 5..|r| - 3]) && AllDigits(r[|r| - 2..]) &&
      60 * ParseDigits(r[|r| - 5..|r| - 3]) + ParseDigits(r[|r| - 2..]) == Magnitude(t.offsetMinutes)
  {
    OffsetShape(DateTimeText(t), t.offsetMinutes);
  }

  lemma OffsetShape(body: string, offsetMinutes: int)
    requires -18 * 60 <= offsetMinutes <= 18 * 60
    ensures var r := InsertOffsetColon(body + Rfc822Zone(offsetMinutes));
      |r| == |body| + 6 &&
      r[..|r| - 6] == body &&
      r[|r| - 6] == SignChar(offsetMinutes) &&
      r[|r| - 3] == ':' &&
      AllDigits(r[|r| - 5..|r| - 3]) && AllDigits(r[|r| - 2..]) &&
      60 * ParseDigits(r[|r| - 5..|r| - 3]) + ParseDigits(r[|r| - 2..]) == Magnitude(offsetMinutes)
  {
    var z := Rfc822Zone(offsetMinutes);
    var magnitude := Magnitude(offsetMinutes);
    ZoneShape(offsetMinutes);
    PadRoundTrip(magnitude / 60, 2);
    PadRoundTrip(magnitude % 60, 2);
    ColonBeforeMinutes(body, z);
    var r := InsertOffsetColon(body + z);
    assert r[|r| - 5..|r| - 3] == z[1..3];
    assert r[|r| - 2..] == z[3..];
  }

  lemma ColonBeforeMinutes(body: string, z: string)
    requires |z| == 5
    ensures var r := InsertOffsetColon(body + z);
      r == body + z[..3] + ":" + z[3..] &&
      r[..|body|] == body && r[|body|] == z[0] && r[|body| + 3] == ':' &&
      r[|body| + 1..|body| + 3] == z[1..3] && r[|body| + 4..] == z[3..]
  {
  }

  /** The UTC+2 offset is written `+02:00`, not `+0200`. */
  lemma Iso8601PlusTwoHours(t: LocalTime)
    requires t.Valid() && t.offsetMinutes == 120
    ensures var r := CurrentTimeAsIso8601(t);
      |r| >= 6 && r[|r| - 6..] == "+02:00"
  {
  }
}

=== FILE: wrappers.dfy ===
/** The nullable values of the telemetry model: Kotlin's `T?`. */
module Wrappers {

  /** `None` stands for Kotlin's `null`, `Some(v)` for a present value. */
  datatype Option<+T> = None | Some(value: T) {

    /** The value, or `default` when absent: Kotlin's `x ?: default`. */
    function GetOr(default: T): T {
      match this
      case Some(v) => v
      case None => default
    }
  }
}
